=== FILE: README.md ===
# Holiday world: a Dafny model of its state rules

This project models the state logic of a browser-based holiday world.
The player walks between zones, finds hidden eggs, plays trivia and clicker mini-games, and watches a leaderboard of bots.
All of that state lives in small update rules, and the project states and proves them as immutable records plus pure functions.
One Dafny module per source file:

- `Types` (`types.ts`): the records `Player`, `Interactable`, `EasterEgg`, `ZoneData`, `ChatMessage` and `TriviaQuestion`, plus the zone and game enumerations. The source field `label` is called `caption`, because `label` is a Dafny keyword.
- `Seqs`: subsequences and a generic filter with its proved contract. The zone view's egg filter is this filter, and the frame's egg check is proved to report exactly the ids of the eggs it keeps.
- `Constants` (`constants.ts`): the `ZONES`, `HIDDEN_EGGS` and `INITIAL_LEADERBOARD` tables, and proofs that they are well formed.
- `Network` (`services/networkService.ts`): how a player becomes a `move`, `score` or `chat` payload, and which callback an inbound event fires. A callback slot is an `Option` of an opaque callback value; `None` stands for `null`.
- `App` (`App.tsx`): the world state of the top-level component, its handlers, the leaderboard sync effect and the bot-score timer.
- `MiniGame` (`components/MiniGameModal.tsx`): the mini-game dialog as a state machine over START, PLAYING, WON and LOST.
- `Leaderboard` (`components/Leaderboard.tsx`): a stable sort by score, highest first, and the numbered rows.
- `WorldZone` (`components/WorldZone.tsx`): which eggs the zone view offers, and which callback a click fires.
- `GameWorld` (`components/GameWorld.tsx`): keyboard state, one animation frame's step with its boundary clamp, the egg proximity check, and the nearest interactable.
- `Chat` (`components/ChatInterface.tsx`): the chat box, JavaScript's `trim`, sending, and typing mode.

Conventions:

- Positions, sizes and radii are `real`. Scores, click counts, countdowns and timestamps are `int`.
- `Math.hypot` is a function-typed parameter `dist`, applied to the offset between two points. No property of it is assumed.
- Each timer firing is an explicit step.
- Each awaited service result is a parameter of the step that awaits it: the trivia question in `StartGame`, the congratulation text in `AnswerTrivia` and `Click`.
- The random bot increments are a sequence of naturals below 50.

The application never constructs the network service: `App.tsx` does not import it.
So the model keeps the payload translation separate from the world state and invents no peer reconciler.

## Model

| member | source | states |
|---|---|---|
| Network.BroadcastMove | services/networkService.ts:85-95 | the `move` payload carries the player's id, name, avatar, score and position |
| Network.BroadcastChat | services/networkService.ts:97-99 | a chat message goes out unchanged: no field is re-stamped or dropped |
| Network.BroadcastScore | services/networkService.ts:101-103 | `broadcastScore(id, s)` sends exactly `{id, score: s}` |
| Network.ReceiveMove | services/networkService.ts:63-72 | a decoded move takes its id from the transport peer id and is never the current user. It copies name, avatar, score, x and y from the payload, and has no velocity or speech bubble |
| Network.Handle | services/networkService.ts:52-82 | an inbound event calls a callback iff its own slot is set, and then the callback in that slot. Join and leave forward the peer id. Move forwards the decoded player. Chat forwards the payload unchanged. Score forwards (sender peer id, payload score) |
| Network.HandleFiresOnlyRegistered | services/networkService.ts:55-81 | with every callback slot null, no inbound event fires anything |
| Network.MoveIgnoresPayloadId | services/networkService.ts:63-72 | changing the payload's `id` never changes the decoded player |
| Network.MoveRoundTrip | services/networkService.ts:63-95 | decoding `broadcastMove(p)` received from `p.id` gives `p` as a remote player. It equals `p` when `p` was already remote and has no transient fields |
| Network.MoveRoundTripPayload | services/networkService.ts:63-95 | re-encoding a decoded move gives back the payload, with its id replaced by the sender's peer id |
| Network.ScoreRoundTrip | services/networkService.ts:80-103 | a score broadcast by `id` arrives as (`id`, score), and a forged payload id changes nothing |
| Network.ChatIgnoresSender | services/networkService.ts:76-99 | a chat payload is forwarded unchanged whichever peer the transport names as sender |
| Constants.ZoneFor | constants.ts:14-64 | the zone table is total: every zone id has an entry |
| Constants.ZonesAreWellFormed | constants.ts:14-64 | every zone's id equals its key. Every portal targets a zone of the table, and every game has a game type. Every interactable lies on its zone's floor, and interactable ids are unique within a zone |
| Constants.HiddenEggsAreWellFormed | constants.ts:66-70 | egg ids are distinct, no egg starts found, and each egg lies on its zone's floor |
| Constants.InitialBotsAreWellFormed | constants.ts:4-9 | no bot is the current user, and bot ids are distinct from each other and from the local player's `p1` |
| Constants.HallAndForestClosedUnderPortals | constants.ts:22-62 | every portal in the hall and in the forest leads to the hall or the forest |
| WorldZone.EggsInZone | components/WorldZone.tsx:13 | the offered eggs are exactly the unfound eggs of the zone, each as often as in the egg list, as an order-preserving subsequence of it |
| WorldZone.OnClick | components/WorldZone.tsx:34-57 | clicking the k-th interactable passes that exact item to `onInteract`. Clicking the k-th shown egg passes that egg's own id, the id of an unfound egg of this zone, to `onFoundEgg`. A click past the last button fires nothing |
| GameWorld.KeyDown | components/GameWorld.tsx:20-23 | a key-down whose target is an INPUT leaves the key state unchanged. Any other key-down marks that key pressed and no other key changes |
| GameWorld.KeyUp | components/GameWorld.tsx:25 | a key-up releases that key and no other |
| GameWorld.Direction | components/GameWorld.tsx:43-59 | dx is zero iff left and right agree, and dy is zero iff up and down agree. Signs follow the keys. A diagonal step has both components ±5·0.707, and a straight step has magnitude 5 |
| GameWorld.OppositeKeysCancel | components/GameWorld.tsx:22-53 | W with S gives dy = 0, A with D gives dx = 0, and a key-down typed into an INPUT changes no direction |
| GameWorld.Clamp | components/GameWorld.tsx:63-64 | the clamped coordinate lies in [20, extent−20] when extent ≥ 40. It is the input when that is already inside, 20 when the input is below 20 or extent < 40, and extent−20 when the input is above it |
| GameWorld.CheckInteractions | components/GameWorld.tsx:79-87 | `onFoundEgg` is called once per egg that is unfound, in the current zone and at distance < 40, in list order, with that egg's id |
| GameWorld.ReportedIffTouching | components/GameWorld.tsx:79-87 | an id is reported iff some egg with that id is unfound, in the current zone, and at distance < 40 |
| GameWorld.Frame | components/GameWorld.tsx:46-72 | with no net direction `onMovePlayer` is not called and no egg is reported. Otherwise the new position is the step clamped to the zone's margins on each axis, and the reported eggs are the check's calls at that new position |
| GameWorld.NearestInteractable | components/GameWorld.tsx:90-102 | the result is null iff no item is strictly within its own range. Otherwise it is in range and strictly closer than every earlier in-range item, and no farther than every later one |
| GameWorld.OnInteractKey | components/GameWorld.tsx:107-112 | the E key interacts with the nearest item exactly when there is one |
| Leaderboard.SortByScore | components/Leaderboard.tsx:13 | the sorted list is a permutation of the players with non-increasing scores |
| Leaderboard.SortIsStable | components/Leaderboard.tsx:13 | for every score, the players with that score keep their input order |
| Leaderboard.StableOrderUnique | components/Leaderboard.tsx:13 | two descending lists that agree on the order within every score are equal |
| Leaderboard.SortCharacterized | components/Leaderboard.tsx:13 | any descending list that keeps each score's players in input order is exactly the sorted list |
| Leaderboard.Rows | components/Leaderboard.tsx:24-31 | row i shows the i-th sorted player with rank i + 1. Ranks 1 to 3 are highlighted, and the current user's row is marked |
| MiniGame.Mount | components/MiniGameModal.tsx:13-20 | a fresh dialog is in START with no question, no clicks and 5 seconds |
| MiniGame.OnOpenChanged | components/MiniGameModal.tsx:22-30 | opening resets to START with clicks = 0, timeLeft = 5, no question and no message. Closing changes nothing |
| MiniGame.Tick | components/MiniGameModal.tsx:33-47 | ticks act only while a clicker game is PLAYING. With timeLeft ≤ 1 the game moves to LOST with timeLeft = 0; otherwise timeLeft drops by one. timeLeft stays within 0..5 |
| MiniGame.StartGame | components/MiniGameModal.tsx:49-59 | trivia loads the question and plays, clicker plays, memory does nothing. Clicks and timeLeft are never reset |
| MiniGame.AnswerTrivia | components/MiniGameModal.tsx:61-71 | with no question loaded it is a no-op. The correct index wins, stores the congratulation and awards 30. Any other index loses and changes nothing else |
| MiniGame.Click | components/MiniGameModal.tsx:73-82 | each click adds one. Reaching 15 wins and awards 20; below that nothing else changes |
| MiniGame.Enabled | components/MiniGameModal.tsx:98-161 | START offers only Play and LOST only Retry, WON offers nothing. The click button and countdown exist exactly while a clicker game is PLAYING, and an answer button exactly while a loaded trivia question is PLAYING and the index is one of its options |
| MiniGame.Apply | components/MiniGameModal.tsx:98-161 | no control changes the game's kind. Only an answer or a click awards points, and only by winning. Play and Retry start a trivia or clicker game and load the given trivia question. A right answer wins 30 and stores the congratulation, and a wrong answer moves to LOST and changes nothing else. A click adds one; the fifteenth wins 20, and one short of the goal changes nothing else. A tick of a running clicker game counts down by one, or to 0 and LOST at 1 second or less, and never awards |
| MiniGame.OpenEstablishesInv | components/MiniGameModal.tsx:22-30 | opening or mounting the dialog establishes the invariant |
| MiniGame.ApplyPreservesInv | components/MiniGameModal.tsx:33-160 | every action the dialog offers keeps timeLeft in 0..5 and clicks in 0..15. Reaching 15 clicks means WON, a lost clicker game has no time left, and a trivia game in play has its question |
| MiniGame.AwardOnlyOnWin | components/MiniGameModal.tsx:61-82 | with atomic awaiting steps, points are awarded only by a step from PLAYING to WON: 20 exactly for the goal click, 30 exactly for the right answer |
| MiniGame.WonIsFinal | components/MiniGameModal.tsx:144-152 | a won dialog offers no further action. In the model, where each awaiting step is atomic, points are therefore awarded at most once per opening |
| MiniGame.ClickerRetryLosesOnFirstTick | components/MiniGameModal.tsx:37-59 | retrying a timed-out clicker game plays with 0 seconds and the old click count, and the next tick loses |
| Chat.Trim | components/ChatInterface.tsx:44-45 | the result is a contiguous slice of the input, with only white space cut from either end and none left at its ends. It is empty iff the input is all white space |
| Chat.TrimIdempotent | components/ChatInterface.tsx:44-45 | trimming twice is trimming once |
| Chat.Send | components/ChatInterface.tsx:43-50 | white-space-only input is never sent. Otherwise the trimmed text is sent and the box cleared; unsent input stays as it was. Typing mode is unchanged |
| Chat.GlobalKey | components/ChatInterface.tsx:24-38 | Enter leaves the box in typing mode (entering it if needed), Escape always leaves typing mode, and other keys change nothing |
| Chat.Step | components/ChatInterface.tsx:24-103 | only Enter in the field or the send button sends, and only the trimmed non-blank text, clearing the box. Unsent input is kept unless typed over. Enter, in the field or elsewhere, and the prompt open typing mode, Escape closes it, and sending keeps it. Any other key leaves the box unchanged |
| Chat.OfferedStepsKeepTyping | components/ChatInterface.tsx:24-106 | over the events the view offers (field and send button only while typing, the prompt only while not), a message is sent only from typing mode and the box stays in it. The field, the button and the prompt all leave the box typing, and in typing mode Enter in the field is exactly `handleSend` |
| App.Init | App.tsx:11-22 | the world starts in the hall with the hidden eggs, no game, and the leaderboard `[player, ...INITIAL_LEADERBOARD]` |
| App.MarkFound | App.tsx:72 | eggs with the id become found, and every other egg is unchanged |
| App.MarkFoundIdempotent | App.tsx:72 | marking an egg is idempotent, and marks of two ids commute |
| App.FoundEgg | App.tsx:71-73 | the egg is marked and the score grows by exactly 10000; no other player field or world field changes |
| App.MiniGameWin | App.tsx:60-61 | the score grows by exactly the points won; no other field changes |
| App.CloseMiniGame | App.tsx:66-68 | the dialog closes and nothing else changes |
| App.Interact | App.tsx:52-58 | a portal with a target moves to that zone, and a game with a type opens that game. Any other input changes nothing |
| App.SyncLeaderboard | App.tsx:48-50 | exactly the current-user entries become the player, and the rest are unchanged |
| App.BotTick | App.tsx:31-45 | length and order are kept and the current user's entry is untouched. A bot's score never decreases and grows by less than 50 |
| App.BotTickExactlyAllowed | App.tsx:34-41 | a leaderboard change is allowed iff some legal set of random increments produces it |
| App.Dispatch | App.tsx:31-77 | an egg or a win raises the score by 10000 or by the points, and then the sync effect copies the player into the current-user entries. An interaction moves through a portal with a target or opens a game with a type, and otherwise changes nothing; it never touches player, eggs or leaderboard. A bot tick changes only the leaderboard, applying the event's own increments. Closing clears only the active game |
| App.InitSynced | App.tsx:11-22 | initially the leaderboard holds exactly one current-user entry, and it is the player |
| App.DispatchPreservesSynced | App.tsx:31-77 | every handler, followed by the sync effect, keeps exactly one current-user entry equal to the player |
| App.FoundEggReachesLeaderboard | App.tsx:48-73 | after an egg is found, the user's leaderboard entry gains exactly 10000 points and bot entries are unchanged |
| App.InteractStaysInReachableZones | App.tsx:52-58 | interacting with the current zone's items never leaves the hall and the forest |
| App.MarkFoundShrinksDisplay | App.tsx:72 | marking an offered egg strictly shrinks the zone's offered eggs, and none of those left has that id |
| App.EggClickShrinksDisplay | App.tsx:71-77 | clicking a shown egg fires `onFoundEgg`, and handling it removes an egg from the display |

Notes on the source's behaviour:

- `handleFoundEgg` does not check that the egg exists or is still hidden. The model keeps that: the score grows by 10000 on every call, and only the egg marking is idempotent.
- Neither view ever reports a found egg.
- `startGame` also serves the Retry button, and it resets neither the click count nor the countdown. A clicker retry after a timeout therefore starts with 0 seconds and is lost at the first tick unless the goal is reached first (`MiniGame.ClickerRetryLosesOnFirstTick`).
- The leaderboard panel sorts a copy, so the players list it is given is never changed; in the model every list is an immutable value.
- `handleClicker` is not guarded by `loading`, so the click button stays live while a congratulation is awaited after the winning click. Every further click there starts another await and another `onWin(20)`, and the top-level component adds each one. The source can therefore award the clicker points more than once per opening.
- `handleTriviaAnswer` does not set `loading` either, so the answer buttons stay live while its congratulation is awaited. A second correct answer awards 30 again. A wrong answer in between sets LOST, and the pending await then sets WON.
- The model makes each awaiting step atomic and shows neither race.
- `handleTriviaAnswer` and `handleClicker` themselves check no phase. The dialog offers their buttons only while a game is PLAYING, and `MiniGame.Enabled` states when each action is offered.
- The frozen lake and the workshop have no portal leading to them, so the player never reaches them from the hall.
- The local player record in `App.tsx:11-17` has no `x` or `y`, although `Player` requires them. The model gives it the position (0, 0); nothing in the top-level component reads it.

## Left out

- The peer transport: joining the room, creating actions, the room lifecycle, `getMyId`, and the console logging on peer join and leave. These belong to a foreign library, and the model covers only the payload mappings.
- Peer reconciliation: create-or-overwrite on `move`, eviction on leave, a broadcast throttle, speech-bubble expiry and heartbeats. No file of the application implements them, and the top-level component never uses the network service.
- The generative text service (`services/geminiService.ts`). Its trivia question and congratulation text are inputs of the steps that await them.
- Interleavings around the awaits in the dialog, such as ticks or clicks while a congratulation is awaited, including the repeated clicker and trivia awards and the LOST-then-WON trivia outcome they allow. Each awaiting step is atomic, so the `loading` flag is always false between steps and is not kept.
- Wall-clock time. The countdown interval, the bot timer, the 2.5-second auto-close and animation frames are explicit steps; notification toasts are not modelled.
- `Math.random`, `Math.hypot` and floating-point rounding. Bot increments are inputs below 50, distance is the parameter `dist`, and coordinates are exact reals. Rounding after the `0.707` scaling, `NaN` and infinite distances are not modelled.
- Rendering, CSS, snow particles, camera offsets, percentage placement of buttons, chat auto-scroll, input focus, and the chat field's delayed blur handler.
- Leaderboard.SortByScore: the comparator `b.score - a.score` is modelled on exact integers. Scores that are `NaN` or beyond exact floating-point range are not modelled.

=== FILE: app.dfy ===
/** The top-level component (App.tsx): the world state it owns and the
    handlers that change it. Every timer is an explicit event; the random
    bot increments of the leaderboard timer are an input. */
module App {
  import opened Wrappers
  import opened Types
  import Constants
  import WorldZone

  /** The local player as first created: id `p1`, score 0. The source record
      has no position; the model places it at the origin. */
  const LocalPlayer: Player :=
    Player(Constants.LocalPlayerId, "SnowExplorer", 0, true, "\U{1F385}", 0.0, 0.0, None, None, None, None)

  const EggPoints: int := 10000

  /** The state hooks of the component; notifications are not kept. */
  datatype World = World(
    player: Player,
    zone: ZoneId,
    eggs: seq<EasterEgg>,
    leaderboard: seq<Player>,
    activeMiniGame: Option<MiniGameType>)

  function Init(): (w: World)
    ensures w.player == LocalPlayer && w.zone == TownSquare && w.activeMiniGame.None?
    ensures w.eggs == Constants.HiddenEggs
    ensures |w.leaderboard| == 1 + |Constants.InitialLeaderboard|
    ensures w.leaderboard[0] == LocalPlayer && w.leaderboard[1..] == Constants.InitialLeaderboard
  {
    World(LocalPlayer, TownSquare, Constants.HiddenEggs, [LocalPlayer] + Constants.InitialLeaderboard, None)
  }

  /** The egg update of `handleFoundEgg`: every egg with the id becomes found,
      every other egg is left as it was. */
  function MarkFound(eggs: seq<EasterEgg>, eggId: string): (r: seq<EasterEgg>)
    ensures |r| == |eggs|
    ensures forall i :: 0 <= i < |r| && eggs[i].id != eggId ==> r[i] == eggs[i]
    ensures forall i :: 0 <= i < |r| && eggs[i].id == eggId ==> r[i] == eggs[i].(found := true)
  {
    seq(|eggs|, i requires 0 <= i < |eggs| => if eggs[i].id == eggId then eggs[i].(found := true) else eggs[i])
  }

  /** Marking an egg twice is marking it once, and the order in which two
      eggs are marked does not matter. */
  lemma MarkFoundIdempotent(eggs: seq<EasterEgg>, a: string, b: string)
    ensures MarkFound(MarkFound(eggs, a), a) == MarkFound(eggs, a)
    ensures MarkFound(MarkFound(eggs, a), b) == MarkFound(MarkFound(eggs, b), a)
  {
  }

  /** `handleFoundEgg`, before the leaderboard effect: the egg is marked and
      the player gains exactly 10000 points, nothing else changes. The source
      does not check that the egg was still hidden or exists. */
  function FoundEgg(w: World, eggId: string): (r: World)
    ensures r.eggs == MarkFound(w.eggs, eggId)
    ensures r.player.score == w.player.score + EggPoints
    ensures r.player.(score := w.player.score) == w.player
    ensures r.zone == w.zone && r.leaderboard == w.leaderboard && r.activeMiniGame == w.activeMiniGame
  {
    w.(eggs := MarkFound(w.eggs, eggId), player := w.player.(score := w.player.score + EggPoints))
  }

  /** `handleMiniGameWin`, before the leaderboard effect. */
  function MiniGameWin(w: World, points: int): (r: World)
    ensures r.player.score == w.player.score + points
    ensures r.player.(score := w.player.score) == w.player
    ensures r.zone == w.zone && r.eggs == w.eggs && r.leaderboard == w.leaderboard
    ensures r.activeMiniGame == w.activeMiniGame
  {
    w.(player := w.player.(score := w.player.score + points))
  }

  /** The dialog's close button, and the timer that closes it 2.5 seconds
      after a win. */
  function CloseMiniGame(w: World): (r: World)
    ensures r.activeMiniGame.None? && r.(activeMiniGame := w.activeMiniGame) == w
  {
    w.(activeMiniGame := None)
  }

  /** `handleInteract`: a portal with a target moves to the target zone, a
      game with a type opens that game, anything else changes nothing. */
  function Interact(w: World, target: Interactable): (r: World)
    ensures target.kind == Portal && target.targetZone.Some? ==> r == w.(zone := target.targetZone.value)
    ensures target.kind == Game && target.gameType.Some? ==> r == w.(activeMiniGame := target.gameType)
    ensures !(target.kind == Portal && target.targetZone.Some?) && !(target.kind == Game && target.gameType.Some?)
            ==> r == w
  {
    if target.kind == Portal && target.targetZone.Some? then w.(zone := target.targetZone.value)
    else if target.kind == Game && target.gameType.Some? then w.(activeMiniGame := target.gameType)
    else w
  }

  /** The leaderboard effect: every current-user entry becomes `player`, every
      other entry stays. */
  function SyncLeaderboard(lb: seq<Player>, player: Player): (r: seq<Player>)
    ensures |r| == |lb|
    ensures forall i :: 0 <= i < |r| ==> (if lb[i].isCurrentUser then r[i] == player else r[i] == lb[i])
  {
    seq(|lb|, i requires 0 <= i < |lb| => if lb[i].isCurrentUser then player else lb[i])
  }

  /** A legal set of random increments for one bot tick: one per entry, each
      `Math.floor(Math.random() * 50)` or zero when the coin says no. */
  predicate ValidBonus(lb: seq<Player>, bonus: seq<int>)
  {
    |bonus| == |lb| && forall i :: 0 <= i < |bonus| ==> 0 <= bonus[i] < 50
  }

  /** One run of the five-second leaderboard timer. */
  function BotTick(lb: seq<Player>, bonus: seq<int>): (r: seq<Player>)
    requires ValidBonus(lb, bonus)
    ensures |r| == |lb|
    ensures forall i :: 0 <= i < |r| && lb[i].isCurrentUser ==> r[i] == lb[i]
    ensures forall i :: 0 <= i < |r| ==> r[i].(score := lb[i].score) == lb[i]
    ensures forall i :: 0 <= i < |r| ==> lb[i].score <= r[i].score < lb[i].score + 50
  {
    seq(|lb|, i requires 0 <= i < |lb| => if lb[i].isCurrentUser then lb[i] else lb[i].(score := lb[i].score + bonus[i]))
  }

  /** What a bot tick may do: keep every entry in its place, leave the current
      user alone, and raise a bot's score by less than 50. */
  predicate BotTickAllowed(lb: seq<Player>, r: seq<Player>)
  {
    && |r| == |lb|
    && (forall i :: 0 <= i < |r| && lb[i].isCurrentUser ==> r[i] == lb[i])
    && (forall i :: 0 <= i < |r| ==> r[i].(score := lb[i].score) == lb[i])
    && (forall i :: 0 <= i < |r| ==> lb[i].score <= r[i].score < lb[i].score + 50)
  }

  /** The bot tick does exactly what is allowed: every tick is allowed, and
      every allowed change is the tick for some increments. */
  lemma BotTickExactlyAllowed(lb: seq<Player>, r: seq<Player>)
    ensures BotTickAllowed(lb, r) <==> exists bonus :: ValidBonus(lb, bonus) && BotTick(lb, bonus) == r
  {
    if BotTickAllowed(lb, r) {
      var bonus := seq(|lb|, i requires 0 <= i < |lb| => r[i].score - lb[i].score);
      assert ValidBonus(lb, bonus);
      assert BotTick(lb, bonus) == r;
    }
  }

  /** The events the component reacts to. */
  datatype Event =
    | EggFound(eggId: string)
    | GameWon(points: int)
    | Interacted(target: Interactable)
    | BotTimer(bonus: seq<int>)
    | GameClosed

  predicate Valid(w: World, ev: Event)
  {
    ev.BotTimer? ==> ValidBonus(w.leaderboard, ev.bonus)
  }

  /** An event's handler followed by the leaderboard effect, which runs
      whenever the handler replaced the player record. */
  function Dispatch(w: World, ev: Event): (r: World)
    requires Valid(w, ev)
    ensures ev.EggFound? ==>
      r.eggs == MarkFound(w.eggs, ev.eggId) && r.player.score == w.player.score + EggPoints
      && r.zone == w.zone && r.activeMiniGame == w.activeMiniGame
    ensures ev.GameWon? ==>
      r.player.score == w.player.score + ev.points
      && r.eggs == w.eggs && r.zone == w.zone && r.activeMiniGame == w.activeMiniGame
    ensures ev.EggFound? || ev.GameWon? ==>
      r.player.(score := w.player.score) == w.player && r.leaderboard == SyncLeaderboard(w.leaderboard, r.player)
    ensures ev.Interacted? ==> r.player == w.player && r.eggs == w.eggs && r.leaderboard == w.leaderboard
    ensures ev.Interacted? && ev.target.kind == Portal && ev.target.targetZone.Some? ==>
      r.zone == ev.target.targetZone.value && r.activeMiniGame == w.activeMiniGame
    ensures ev.Interacted? && ev.target.kind == Game && ev.target.gameType.Some? ==>
      r.activeMiniGame == ev.target.gameType && r.zone == w.zone
    ensures ev.Interacted? ==>
      (ev.target.kind == Portal && ev.target.targetZone.Some?) || (ev.target.kind == Game && ev.target.gameType.Some?) || r == w
    ensures ev.BotTimer? ==> r.(leaderboard := w.leaderboard) == w && BotTickAllowed(w.leaderboard, r.leaderboard)
    ensures ev.BotTimer? ==> r.leaderboard == BotTick(w.leaderboard, ev.bonus)
    ensures ev.GameClosed? ==> r == w.(activeMiniGame := None)
  {
    match ev
    case EggFound(id) =>
      var w' := FoundEgg(w, id);
      w'.(leaderboard := SyncLeaderboard(w'.leaderboard, w'.player))
    case GameWon(points) =>
      var w' := MiniGameWin(w, points);
      w'.(leaderboard := SyncLeaderboard(w'.leaderboard, w'.player))
    case Interacted(target) => Interact(w, target)
    case BotTimer(bonus) => w.(leaderboard := BotTick(w.leaderboard, bonus))
    case GameClosed => CloseMiniGame(w)
  }

  /** The leaderboard shows the player: the player is the current user, the
      leaderboard has exactly one current-user entry, and it is the player. */
  predicate Synced(w: World)
  {
    var lb := w.leaderboard;
    && w.player.isCurrentUser
    && (exists i :: 0 <= i < |lb| && lb[i].isCurrentUser)
    && (forall i, j :: 0 <= i < |lb| && 0 <= j < |lb| && lb[i].isCurrentUser && lb[j].isCurrentUser ==> i == j)
    && (forall i :: 0 <= i < |lb| && lb[i].isCurrentUser ==> lb[i] == w.player)
  }

  lemma InitSynced()
    ensures Synced(Init())
  {
    Constants.InitialBotsAreWellFormed();
    assert Init().leaderboard[0].isCurrentUser;
  }

  /** Every event keeps the leaderboard in step with the player. */
  lemma DispatchPreservesSynced(w: World, ev: Event)
    requires Synced(w) && Valid(w, ev)
    ensures Synced(Dispatch(w, ev))
  {
    var i :| 0 <= i < |w.leaderboard| && w.leaderboard[i].isCurrentUser;
    assert Dispatch(w, ev).leaderboard[i].isCurrentUser;
  }

  /** Finding an egg shows on the leaderboard: the user's entry gains exactly
      10000 points, and no bot entry changes. */
  lemma FoundEggReachesLeaderboard(w: World, eggId: string, i: int)
    requires Synced(w) && 0 <= i < |w.leaderboard|
    ensures w.leaderboard[i].isCurrentUser ==>
      Dispatch(w, EggFound(eggId)).leaderboard[i].score == w.leaderboard[i].score + EggPoints
    ensures !w.leaderboard[i].isCurrentUser ==>
      Dispatch(w, EggFound(eggId)).leaderboard[i] == w.leaderboard[i]
  {
  }

  /** Interacting with the items of the current zone never leaves the hall
      and the forest once there. */
  lemma InteractStaysInReachableZones(w: World, k: int)
    requires w.zone == TownSquare || w.zone == MysticForest
    requires 0 <= k < |Constants.Zones[w.zone].interactables|
    ensures var r := Interact(w, Constants.Zones[w.zone].interactables[k]);
            r.zone == TownSquare || r.zone == MysticForest
  {
    Constants.HallAndForestClosedUnderPortals();
  }

  /** Clicking a displayed egg and handling the report removes that egg from
      the display: the zone offers strictly fewer eggs afterwards. */
  lemma MarkFoundShrinksDisplay(zone: ZoneData, eggs: seq<EasterEgg>, eggId: string)
    requires exists i :: 0 <= i < |eggs| && eggs[i].id == eggId && WorldZone.Offered(zone, eggs[i])
    ensures |WorldZone.EggsInZone(zone, MarkFound(eggs, eggId))| < |WorldZone.EggsInZone(zone, eggs)|
    ensures forall e :: e in WorldZone.EggsInZone(zone, MarkFound(eggs, eggId)) ==> e.id != eggId
  {
    MarkFoundShrinks(zone, eggs, eggId);
    MarkedNotOffered(zone, eggs, eggId);
  }

  /** After marking, no offered egg carries the marked id. */
  lemma MarkedNotOffered(zone: ZoneData, eggs: seq<EasterEgg>, eggId: string)
    ensures forall e :: e in WorldZone.EggsInZone(zone, MarkFound(eggs, eggId)) ==> e.id != eggId
  {
    var marked := MarkFound(eggs, eggId);
    forall e | e in WorldZone.EggsInZone(zone, marked)
      ensures e.id != eggId
    {
      assert e in marked && !e.found;
      var j :| 0 <= j < |marked| && marked[j] == e;
      assert marked[j].id == eggs[j].id && marked[j].found == (eggs[j].found || eggs[j].id == eggId);
    }
  }

  /** The counting half of `MarkFoundShrinksDisplay`, by induction on the
      egg list. */
  lemma {:induction false} MarkFoundShrinks(zone: ZoneData, eggs: seq<EasterEgg>, eggId: string)
    requires exists i :: 0 <= i < |eggs| && eggs[i].id == eggId && WorldZone.Offered(zone, eggs[i])
    ensures |WorldZone.EggsInZone(zone, MarkFound(eggs, eggId))| < |WorldZone.EggsInZone(zone, eggs)|
    decreases |eggs|
  {
    var marked := MarkFound(eggs, eggId);
    assert marked[1..] == MarkFound(eggs[1..], eggId);
    WorldZone.EggsInZoneStep(zone, eggs);
    WorldZone.EggsInZoneStep(zone, marked);
    var i :| 0 <= i < |eggs| && eggs[i].id == eggId && WorldZone.Offered(zone, eggs[i]);
    if i == 0 {
      NoGrowth(zone, eggs[1..], eggId);
    } else {
      assert eggs[1..][i - 1] == eggs[i];
      MarkFoundShrinks(zone, eggs[1..], eggId);
    }
  }

  /** Marking eggs never adds to the display. */
  lemma {:induction false} NoGrowth(zone: ZoneData, eggs: seq<EasterEgg>, eggId: string)
    ensures |WorldZone.EggsInZone(zone, MarkFound(eggs, eggId))| <= |WorldZone.EggsInZone(zone, eggs)|
    decreases |eggs|
  {
    if eggs != [] {
      assert MarkFound(eggs, eggId)[1..] == MarkFound(eggs[1..], eggId);
      WorldZone.EggsInZoneStep(zone, eggs);
      WorldZone.EggsInZoneStep(zone, MarkFound(eggs, eggId));
      NoGrowth(zone, eggs[1..], eggId);
    }
  }

  /** A click on the `k`-th displayed egg, dispatched to the component,
      removes an egg from the display. */
  lemma EggClickShrinksDisplay(w: World, k: nat)
    requires k < |WorldZone.EggsInZone(Constants.ZoneFor(w.zone), w.eggs)|
    ensures var call := WorldZone.OnClick(Constants.ZoneFor(w.zone), w.eggs, WorldZone.ClickEgg(k));
            && call.Some? && call.value.FoundEgg?
            && |WorldZone.EggsInZone(Constants.ZoneFor(w.zone), Dispatch(w, EggFound(call.value.eggId)).eggs)|
               < |WorldZone.EggsInZone(Constants.ZoneFor(w.zone), w.eggs)|
  {
    var zone := Constants.ZoneFor(w.zone);
    var call := WorldZone.OnClick(zone, w.eggs, WorldZone.ClickEgg(k));
    MarkFoundShrinksDisplay(zone, w.eggs, call.value.eggId);
  }
}

=== FILE: chat.dfy ===
/** The chat box (components/ChatInterface.tsx): the typed text, whether the
    box is in typing mode, and what is handed to `onSendMessage`. Focus and
    blur timing are not modelled. */
module Chat {
  import opened Wrappers

  /** The characters `String.prototype.trim` removes: the ECMAScript
      WhiteSpace and LineTerminator characters. */
  const SpaceChars: set<char> := {
    '\t', '\n', '\U{000B}', '\U{000C}', '\r', ' ', '\U{00A0}', '\U{1680}',
    '\U{2000}', '\U{2001}', '\U{2002}', '\U{2003}', '\U{2004}', '\U{2005}',
    '\U{2006}', '\U{2007}', '\U{2008}', '\U{2009}', '\U{200A}',
    '\U{2028}', '\U{2029}', '\U{202F}', '\U{205F}', '\U{3000}', '\U{FEFF}'
  }

  predicate IsSpace(c: char)
  {
    c in SpaceChars
  }

  /** Every character of `s[lo..hi]` is white space. */
  predicate SpaceBetween(s: string, lo: int, hi: int)
    requires 0 <= lo <= hi <= |s|
  {
    forall k :: lo <= k < hi ==> IsSpace(s[k])
  }

  predicate AllSpace(s: string)
  {
    SpaceBetween(s, 0, |s|)
  }

  /** The first position at or after `i` that is not white space. */
  function SkipLeading(s: string, i: nat): (n: nat)
    requires i <= |s|
    ensures i <= n <= |s| && SpaceBetween(s, i, n)
    ensures n < |s| ==> !IsSpace(s[n])
    decreases |s| - i
  {
    if i < |s| && IsSpace(s[i]) then SkipLeading(s, i + 1) else i
  }

  /** The end of `s[lo..j]` once its trailing white space is cut off. */
  function SkipTrailing(s: string, lo: nat, j: nat): (m: nat)
    requires lo <= j <= |s|
    ensures lo <= m <= j && SpaceBetween(s, m, j)
    ensures m > lo ==> !IsSpace(s[m - 1])
    decreases j
  {
    if j > lo && IsSpace(s[j - 1]) then SkipTrailing(s, lo, j - 1) else j
  }

  /** `trim()`: the text with the white space at both ends removed. */
  function Trim(s: string): (r: string)
    ensures exists i, j :: 0 <= i <= j <= |s| && r == s[i..j] && SpaceBetween(s, 0, i) && SpaceBetween(s, j, |s|)
    ensures r != [] ==> !IsSpace(r[0]) && !IsSpace(r[|r| - 1])
    ensures r == [] <==> AllSpace(s)
  {
    var i := SkipLeading(s, 0);
    var j := SkipTrailing(s, i, |s|);
    assert i == j ==> AllSpace(s);
    s[i..j]
  }

  /** Trimming twice is trimming once. */
  lemma {:induction false} TrimIdempotent(s: string)
    ensures Trim(Trim(s)) == Trim(s)
  {
    var t := Trim(s);
    if t != [] {
      assert SkipLeading(t, 0) == 0;
      assert SkipTrailing(t, 0, |t|) == |t|;
      assert t[0..|t|] == t;
    }
  }

  datatype ChatBox = ChatBox(inputText: string, isTyping: bool)

  /** A step's new box and the text passed to `onSendMessage`, if any. */
  datatype Reaction = Reaction(box: ChatBox, sent: Option<string>)

  /** `handleSend`: sends the trimmed text and clears the box, unless the
      text is only white space, in which case nothing happens. Typing mode is
      never left by sending. */
  function Send(b: ChatBox): (r: Reaction)
    ensures r.sent.Some? <==> !AllSpace(b.inputText)
    ensures r.sent.Some? ==> r.sent.value == Trim(b.inputText) && r.sent.value != [] && r.box.inputText == ""
    ensures r.sent.None? ==> r.box == b
    ensures r.box.isTyping == b.isTyping
  {
    var t := Trim(b.inputText);
    if t != [] then Reaction(b.(inputText := ""), Some(t)) else Reaction(b, None)
  }

  /** The window-wide key handler: Enter outside typing mode enters it,
      Escape always leaves it, any other key does nothing. */
  function GlobalKey(b: ChatBox, key: string): (r: ChatBox)
    ensures key == "Escape" ==> !r.isTyping
    ensures key == "Enter" ==> r.isTyping
    ensures key != "Enter" && key != "Escape" ==> r == b
    ensures r.inputText == b.inputText
  {
    if key == "Enter" && !b.isTyping then b.(isTyping := true)
    else if key == "Escape" then b.(isTyping := false)
    else b
  }

  /** What the user does to the chat box. `KeyInInput` is a key pressed in
      the text field: the field's own handler runs first, then the key
      reaches the window handler. */
  datatype ChatEvent =
    | KeyElsewhere(key: string)
    | KeyInInput(key: string)
    | Typed(text: string)
    | SendClicked
    | PromptClicked

  /** Which events the view can produce: the text field and the send button
      exist only in typing mode, the "Press Enter to chat" prompt only outside
      it; a key pressed elsewhere can always arrive. */
  predicate Offered(b: ChatBox, ev: ChatEvent)
  {
    match ev
    case KeyElsewhere(_) => true
    case KeyInInput(_) => b.isTyping
    case Typed(_) => b.isTyping
    case SendClicked => b.isTyping
    case PromptClicked => !b.isTyping
  }

  /** One user action on the chat box: only Enter in the field and the send
      button send, and what they send is the trimmed non-blank text; a key
      elsewhere touches only typing mode; typing replaces the text; the
      prompt opens typing mode. The clauses hold for every event, including
      those `Offered` rules out. */
  function Step(b: ChatBox, ev: ChatEvent): (r: Reaction)
    ensures r.sent.Some? <==> (ev == SendClicked || ev == KeyInInput("Enter")) && !AllSpace(b.inputText)
    ensures r.sent.Some? ==> r.sent.value == Trim(b.inputText) && r.box.inputText == ""
    ensures r.sent.None? && !ev.Typed? ==> r.box.inputText == b.inputText
    ensures ev.Typed? ==> r.box == b.(inputText := ev.text)
    ensures ev == KeyInInput("Enter") || ev == KeyElsewhere("Enter") || ev == PromptClicked ==> r.box.isTyping
    ensures (ev.KeyElsewhere? || ev.KeyInInput?) && ev.key != "Enter" && ev.key != "Escape" ==> r.box == b
    ensures ev == KeyInInput("Escape") || ev == KeyElsewhere("Escape") ==> !r.box.isTyping
    ensures ev == SendClicked || ev.Typed? ==> r.box.isTyping == b.isTyping
  {
    match ev
    case KeyElsewhere(key) => Reaction(GlobalKey(b, key), None)
    case KeyInInput(key) =>
      if key == "Enter" then
        var s := Send(b);
        Reaction(GlobalKey(s.box, key), s.sent)
      else Reaction(GlobalKey(b, key), None)
    case Typed(text) => Reaction(b.(inputText := text), None)
    case SendClicked => Send(b)
    case PromptClicked => Reaction(b.(isTyping := true), None)
  }

  /** Over the events the view offers: a message is sent only from typing
      mode, which sending never leaves; the field, the button and the prompt
      all leave the box in typing mode; and in typing mode, Enter in the field
      is exactly `handleSend`, the window handler adding nothing. */
  lemma OfferedStepsKeepTyping(b: ChatBox, ev: ChatEvent)
    requires Offered(b, ev)
    ensures Step(b, ev).sent.Some? ==> b.isTyping && Step(b, ev).box.isTyping
    ensures !ev.KeyElsewhere? && !ev.KeyInInput? ==> Step(b, ev).box.isTyping
    ensures ev == KeyInInput("Enter") ==> Step(b, ev) == Send(b)
  {
  }
}

=== FILE: constants.dfy ===
/** The static world data (constants.ts): the bot players of the initial
    leaderboard, the four zones with their interactables, and the hidden eggs;
    together with the well-formedness facts the rest of the world relies on,
    each proved of the actual tables. Emoji are written as code-point escapes. */
module Constants {
  import opened Wrappers
  import opened Types

  /** A player record as the source's object literals write it: no velocity
      and no speech bubble. */
  function Bot(id: string, name: string, score: int, avatar: string, x: real, y: real): Player
  {
    Player(id, name, score, false, avatar, x, y, None, None, None, None)
  }

  const InitialLeaderboard: seq<Player> := [
    Bot("p2", "ElfTwinkle", 8500, "\U{1F9DD}", 400.0, 300.0),
    Bot("p3", "RudolphRacer", 6200, "\U{1F98C}", 600.0, 500.0),
    Bot("p4", "FrostyFan", 4500, "\U{26C4}", 200.0, 800.0),
    Bot("p5", "MrsClausCookie", 2100, "\U{1F475}", 800.0, 200.0)
  ]

  const WorldWidth: real := 2000.0
  const WorldHeight: real := 2000.0

  function GameAt(id: string, x: real, y: real, caption: string, icon: string, game: MiniGameType): Interactable
  {
    Interactable(id, x, y, caption, icon, Game, Some(game), None, None, 100.0)
  }

  function PortalAt(id: string, x: real, y: real, caption: string, icon: string, target: ZoneId): Interactable
  {
    Interactable(id, x, y, caption, icon, Portal, None, Some(target), None, 100.0)
  }

  const TownSquareZone: ZoneData := ZoneData(
    TownSquare, "North Pole Hall", "The Grand Lobby. Meet friends and find games!",
    2000.0, 2000.0, "radial-gradient(circle, #1e293b 0%, #0f172a 100%)",
    [ GameAt("game_trivia_1", 400.0, 400.0, "Wise Owl Trivia", "\U{1F989}", Trivia),
      GameAt("game_clicker_1", 1200.0, 600.0, "Speedy Skater", "\U{26F8}\U{FE0F}", Clicker),
      Interactable("npc_santa", 1000.0, 150.0, "Santa", "\U{1F385}", Npc, None, None,
                   Some("Ho Ho Ho! Find the hidden eggs!"), 120.0),
      PortalAt("portal_forest", 1800.0, 1000.0, "Mystic Forest", "\U{1F332}", MysticForest) ])

  const FrozenLakeZone: ZoneData := ZoneData(
    FrozenLake, "Frozen Lake", "Slippery ice!",
    1500.0, 1500.0, "linear-gradient(to bottom, #bae6fd, #7dd3fc)",
    [ PortalAt("portal_square", 100.0, 750.0, "Back to Hall", "\U{1F3E0}", TownSquare) ])

  const MysticForestZone: ZoneData := ZoneData(
    MysticForest, "Mystic Forest", "Dark and mysterious.",
    1500.0, 1500.0, "repeating-linear-gradient(45deg, #064e3b 0px, #065f46 40px)",
    [ PortalAt("portal_square", 100.0, 750.0, "Back to Hall", "\U{1F3E0}", TownSquare),
      GameAt("game_trivia_2", 800.0, 500.0, "Ancient Snowman", "\U{2603}\U{FE0F}", Trivia) ])

  const SantaWorkshopZone: ZoneData := ZoneData(
    SantaWorkshop, "Workshop", "Toys everywhere!",
    1200.0, 1200.0, "linear-gradient(to bottom, #7f1d1d, #450a0a)",
    [ PortalAt("portal_square", 600.0, 1100.0, "Exit", "\U{1F6AA}", TownSquare) ])

  /** `ZONES`, a record keyed by every zone id. */
  const Zones: map<ZoneId, ZoneData> := map[
    TownSquare := TownSquareZone,
    FrozenLake := FrozenLakeZone,
    MysticForest := MysticForestZone,
    SantaWorkshop := SantaWorkshopZone
  ]

  /** `ZONES[id]`: the table is total, so the lookup always succeeds. */
  function ZoneFor(id: ZoneId): (z: ZoneData)
    ensures id in Zones && z == Zones[id]
  {
    match id
    case TownSquare => TownSquareZone
    case FrozenLake => FrozenLakeZone
    case MysticForest => MysticForestZone
    case SantaWorkshop => SantaWorkshopZone
  }

  const HiddenEggs: seq<EasterEgg> := [
    EasterEgg("egg_1", TownSquare, 250.0, 250.0, false),
    EasterEgg("egg_2", TownSquare, 1600.0, 1400.0, false),
    EasterEgg("egg_3", MysticForest, 500.0, 500.0, false)
  ]

  /** The identity of the local player, fixed in the top-level component. */
  const LocalPlayerId: string := "p1"

  /** A point lies on a zone's floor. */
  predicate OnFloor(zone: ZoneData, x: real, y: real)
  {
    0.0 <= x <= zone.width && 0.0 <= y <= zone.height
  }

  /** An interactable carries what its kind needs: a portal a target that is a
      zone, a game a game type. */
  predicate Actionable(item: Interactable, zones: map<ZoneId, ZoneData>)
  {
    && (item.kind == Portal ==> item.targetZone.Some? && item.targetZone.value in zones)
    && (item.kind == Game ==> item.gameType.Some?)
  }

  /** One zone entry is well formed under its key. */
  predicate ZoneWellFormed(key: ZoneId, zone: ZoneData, zones: map<ZoneId, ZoneData>)
  {
    var items := zone.interactables;
    && zone.id == key
    && (forall i :: 0 <= i < |items| ==> Actionable(items[i], zones))
    && (forall i :: 0 <= i < |items| ==> OnFloor(zone, items[i].x, items[i].y))
    && (forall i, j :: 0 <= i < j < |items| ==> items[i].id != items[j].id)
  }

  /** The zone table covers every zone id and every entry is well formed. */
  predicate ZonesWellFormed(zones: map<ZoneId, ZoneData>)
  {
    && (forall z: ZoneId :: z in zones)
    && (forall z :: z in zones ==> ZoneWellFormed(z, zones[z], zones))
  }

  /** The egg table: distinct ids, none found yet, each on its zone's floor. */
  predicate EggsWellFormed(eggs: seq<EasterEgg>, zones: map<ZoneId, ZoneData>)
  {
    && (forall i, j :: 0 <= i < j < |eggs| ==> eggs[i].id != eggs[j].id)
    && (forall i :: 0 <= i < |eggs| ==> !eggs[i].found)
    && (forall i :: 0 <= i < |eggs| ==> eggs[i].zoneId in zones && OnFloor(zones[eggs[i].zoneId], eggs[i].x, eggs[i].y))
  }

  /** The bots: none is the current user, and their ids are distinct from each
      other and from the local player's. */
  predicate BotsWellFormed(bots: seq<Player>, localId: string)
  {
    && (forall i :: 0 <= i < |bots| ==> !bots[i].isCurrentUser && bots[i].id != localId)
    && (forall i, j :: 0 <= i < j < |bots| ==> bots[i].id != bots[j].id)
  }

  lemma ZonesAreWellFormed()
    ensures ZonesWellFormed(Zones)
  {
    forall z: ZoneId
      ensures z in Zones
    {
      match z
      case TownSquare =>
      case FrozenLake =>
      case MysticForest =>
      case SantaWorkshop =>
    }
    forall z | z in Zones
      ensures ZoneWellFormed(z, Zones[z], Zones)
    {
      EachZoneWellFormed(z);
    }
  }

  lemma EachZoneWellFormed(z: ZoneId)
    ensures z in Zones && ZoneWellFormed(z, Zones[z], Zones)
  {
    match z
    case TownSquare => TownSquareWellFormed();
    case FrozenLake =>
    case MysticForest =>
    case SantaWorkshop =>
  }

  lemma TownSquareWellFormed()
    ensures ZoneWellFormed(TownSquare, TownSquareZone, Zones)
  {
    var items := TownSquareZone.interactables;
    assert forall i :: 0 <= i < |items| ==> Actionable(items[i], Zones);
    assert forall i :: 0 <= i < |items| ==> OnFloor(TownSquareZone, items[i].x, items[i].y);
  }

  lemma HiddenEggsAreWellFormed()
    ensures EggsWellFormed(HiddenEggs, Zones)
  {
  }

  lemma InitialBotsAreWellFormed()
    ensures BotsWellFormed(InitialLeaderboard, LocalPlayerId)
  {
  }

  /** `region` is closed under portals: every portal with a target in a zone
      of `region` leads to a zone of `region` again. */
  predicate PortalClosed(zones: map<ZoneId, ZoneData>, region: set<ZoneId>)
  {
    forall z :: z in region && z in zones ==>
      forall i :: 0 <= i < |zones[z].interactables| && zones[z].interactables[i].kind == Portal
                  && zones[z].interactables[i].targetZone.Some?
                  ==> zones[z].interactables[i].targetZone.value in region
  }

  /** No portal leads out of the hall and the forest: the frozen lake and the
      workshop are never entered from the starting zone. */
  lemma HallAndForestClosedUnderPortals()
    ensures PortalClosed(Zones, {TownSquare, MysticForest})
    ensures FrozenLake !in {TownSquare, MysticForest} && SantaWorkshop !in {TownSquare, MysticForest}
  {
    assert Zones[TownSquare].interactables == TownSquareZone.interactables;
    assert Zones[MysticForest].interactables == MysticForestZone.interactables;
  }
}

=== FILE: gameworld.dfy ===
/** The walking view (components/GameWorld.tsx): the keyboard state, one
    animation frame's movement step with its boundary clamp, the egg
    proximity check, and the choice of the interactable to use with `E`.
    `Math.hypot` is the parameter `dist`, applied to the offset between two
    points; nothing is assumed about it. */
module GameWorld {
  import opened Wrappers
  import opened Types
  import opened Seqs

  /** The `keys` record: key code to pressed; a missing code is not pressed. */
  type Keys = map<string, bool>

  function Held(keys: Keys, code: string): bool
  {
    code in keys && keys[code]
  }

  /** A key-down: ignored when its target is a text input, otherwise it marks
      the key pressed. */
  function KeyDown(keys: Keys, code: string, targetTag: string): (r: Keys)
    ensures targetTag == "INPUT" ==> r == keys
    ensures targetTag != "INPUT" ==>
      Held(r, code) && forall c :: c != code ==> Held(r, c) == Held(keys, c)
  {
    if targetTag == "INPUT" then keys else keys[code := true]
  }

  /** A key-up marks the key released, whatever its target. */
  function KeyUp(keys: Keys, code: string): (r: Keys)
    ensures !Held(r, code)
    ensures forall c :: c != code ==> Held(r, c) == Held(keys, c)
  {
    keys[code := false]
  }

  const Speed: real := 5.0
  const DiagonalFactor: real := 0.707

  predicate Up(keys: Keys)    { Held(keys, "KeyW") || Held(keys, "ArrowUp") }
  predicate Down(keys: Keys)  { Held(keys, "KeyS") || Held(keys, "ArrowDown") }
  predicate Left(keys: Keys)  { Held(keys, "KeyA") || Held(keys, "ArrowLeft") }
  predicate Right(keys: Keys) { Held(keys, "KeyD") || Held(keys, "ArrowRight") }

  /** One axis of the step: minus `Speed` for the negative key, plus `Speed`
      for the positive one. */
  function Axis(negative: bool, positive: bool): real
  {
    (if negative then -Speed else 0.0) + (if positive then Speed else 0.0)
  }

  datatype Delta = Delta(dx: real, dy: real)

  datatype Point = Point(x: real, y: real)

  /** The step of one frame for the keys held. */
  function Direction(keys: Keys): (d: Delta)
    ensures d.dx == 0.0 <==> Left(keys) == Right(keys)
    ensures d.dy == 0.0 <==> Up(keys) == Down(keys)
    ensures d.dx < 0.0 <==> Left(keys) && !Right(keys)
    ensures d.dy < 0.0 <==> Up(keys) && !Down(keys)
    ensures d.dx != 0.0 && d.dy != 0.0 ==>
      (d.dx == Speed * DiagonalFactor || d.dx == -Speed * DiagonalFactor)
      && (d.dy == Speed * DiagonalFactor || d.dy == -Speed * DiagonalFactor)
    ensures (d.dx == 0.0) != (d.dy == 0.0) ==> d.dx * d.dx + d.dy * d.dy == Speed * Speed
  {
    var dx := Axis(Left(keys), Right(keys));
    var dy := Axis(Up(keys), Down(keys));
    if dx != 0.0 && dy != 0.0 then Delta(dx * DiagonalFactor, dy * DiagonalFactor)
    else Delta(dx, dy)
  }

  /** `Math.max(20, Math.min(extent - 20, v))`. */
  function Clamp(v: real, extent: real): (r: real)
    ensures extent >= 40.0 ==> 20.0 <= r <= extent - 20.0
    ensures 20.0 <= v <= extent - 20.0 ==> r == v
    ensures extent < 40.0 ==> r == 20.0
    ensures v < 20.0 ==> r == 20.0
    ensures extent >= 40.0 && v > extent - 20.0 ==> r == extent - 20.0
    ensures r == v || r == 20.0 || r == extent - 20.0
  {
    var capped := if extent - 20.0 < v then extent - 20.0 else v;
    if capped < 20.0 then 20.0 else capped
  }

  /** The egg the frame's check reports: hidden, of this zone, and closer
      than 40 to the new position. */
  predicate Touches(zone: ZoneData, egg: EasterEgg, p: Point, dist: (real, real) -> real)
  {
    egg.zoneId == zone.id && !egg.found && dist(egg.x - p.x, egg.y - p.y) < 40.0
  }

  /** The ids of a list of eggs, in list order. */
  function Ids(eggs: seq<EasterEgg>): (r: seq<string>)
    ensures |r| == |eggs| && forall i :: 0 <= i < |eggs| ==> r[i] == eggs[i].id
  {
    seq(|eggs|, i requires 0 <= i < |eggs| => eggs[i].id)
  }

  lemma IdsCons(egg: EasterEgg, eggs: seq<EasterEgg>)
    ensures Ids([egg] + eggs) == [egg.id] + Ids(eggs)
  {
  }

  /** The test `checkInteractions` applies to each egg. */
  function TouchTest(zone: ZoneData, p: Point, dist: (real, real) -> real): EasterEgg -> bool
  {
    egg => Touches(zone, egg, p, dist)
  }

  /** `checkInteractions`: the ids passed to `onFoundEgg`, in call order, one
      call per touching egg. */
  function CheckInteractions(zone: ZoneData, eggs: seq<EasterEgg>, p: Point, dist: (real, real) -> real): (r: seq<string>)
    ensures r == Ids(Filter(eggs, TouchTest(zone, p, dist)))
    ensures |r| <= |eggs|
  {
    if eggs == [] then []
    else
      var rest := CheckInteractions(zone, eggs[1..], p, dist);
      FilterStep(eggs, TouchTest(zone, p, dist));
      if Touches(zone, eggs[0], p, dist) then
        IdsCons(eggs[0], Filter(eggs[1..], TouchTest(zone, p, dist)));
        [eggs[0].id] + rest
      else
        rest
  }

  /** An id is reported iff some egg with that id touches the point. */
  lemma ReportedIffTouching(zone: ZoneData, eggs: seq<EasterEgg>, p: Point, dist: (real, real) -> real)
    ensures forall id :: id in CheckInteractions(zone, eggs, p, dist) <==>
      exists i :: 0 <= i < |eggs| && eggs[i].id == id && Touches(zone, eggs[i], p, dist)
  {
    var touching := Filter(eggs, TouchTest(zone, p, dist));
    forall id | id in CheckInteractions(zone, eggs, p, dist)
      ensures exists i :: 0 <= i < |eggs| && eggs[i].id == id && Touches(zone, eggs[i], p, dist)
    {
      var j :| 0 <= j < |touching| && touching[j].id == id;
      assert touching[j] in touching;
      var i :| 0 <= i < |eggs| && eggs[i] == touching[j];
    }
    forall id | exists i :: 0 <= i < |eggs| && eggs[i].id == id && Touches(zone, eggs[i], p, dist)
      ensures id in CheckInteractions(zone, eggs, p, dist)
    {
      var i :| 0 <= i < |eggs| && eggs[i].id == id && Touches(zone, eggs[i], p, dist);
      assert eggs[i] in touching;
      var j :| 0 <= j < |touching| && touching[j] == eggs[i];
      assert CheckInteractions(zone, eggs, p, dist)[j] == id;
    }
  }

  /** What one animation frame does: the position handed to `onMovePlayer`
      (none when the keys cancel out) and the eggs reported found. */
  datatype FrameEffect = FrameEffect(moveTo: Option<Point>, found: seq<string>)

  function Frame(zone: ZoneData, player: Player, keys: Keys, eggs: seq<EasterEgg>, dist: (real, real) -> real): (r: FrameEffect)
    ensures r.moveTo.None? <==> Direction(keys) == Delta(0.0, 0.0)
    ensures r.moveTo.None? ==> r.found == []
    ensures r.moveTo.Some? && zone.width >= 40.0 && zone.height >= 40.0 ==>
      20.0 <= r.moveTo.value.x <= zone.width - 20.0 && 20.0 <= r.moveTo.value.y <= zone.height - 20.0
    ensures r.moveTo.Some? ==>
      r.moveTo.value == Point(Clamp(player.x + Direction(keys).dx, zone.width), Clamp(player.y + Direction(keys).dy, zone.height))
    ensures r.moveTo.Some? ==> r.found == CheckInteractions(zone, eggs, r.moveTo.value, dist)
    ensures r.moveTo.Some? ==> forall id :: id in r.found <==>
      exists i :: 0 <= i < |eggs| && eggs[i].id == id && Touches(zone, eggs[i], r.moveTo.value, dist)
  {
    var d := Direction(keys);
    if d.dx != 0.0 || d.dy != 0.0 then
      var next := Point(Clamp(player.x + d.dx, zone.width), Clamp(player.y + d.dy, zone.height));
      ReportedIffTouching(zone, eggs, next, dist);
      FrameEffect(Some(next), CheckInteractions(zone, eggs, next, dist))
    else
      FrameEffect(None, [])
  }

  /** Opposite keys cancel; a key-down typed into a text input changes
      nothing about movement. */
  lemma OppositeKeysCancel(keys: Keys, code: string)
    ensures Held(keys, "KeyW") && Held(keys, "KeyS") ==> Direction(keys).dy == 0.0
    ensures Held(keys, "KeyA") && Held(keys, "KeyD") ==> Direction(keys).dx == 0.0
    ensures Direction(KeyDown(keys, code, "INPUT")) == Direction(keys)
  {
  }

  function Distance(item: Interactable, p: Point, dist: (real, real) -> real): real
  {
    dist(item.x - p.x, item.y - p.y)
  }

  predicate InRange(item: Interactable, p: Point, dist: (real, real) -> real)
  {
    Distance(item, p, dist) < item.range
  }

  /** `items[k]` is the item `getNearestInteractable` settles on: in its own
      range, strictly closer than every in-range item before it, and no
      farther than every in-range item after it. */
  predicate NearestAt(items: seq<Interactable>, k: int, p: Point, dist: (real, real) -> real)
  {
    && 0 <= k < |items|
    && InRange(items[k], p, dist)
    && (forall j :: 0 <= j < k && InRange(items[j], p, dist) ==>
          Distance(items[j], p, dist) > Distance(items[k], p, dist))
    && (forall j :: k < j < |items| && InRange(items[j], p, dist) ==>
          Distance(items[j], p, dist) >= Distance(items[k], p, dist))
  }

  /** `getNearestInteractable`: the closest interactable within its own
      range, the first one on a tie, and none when nothing is in range.
      `minDst` starts at infinity, written as `None`. */
  method NearestInteractable(items: seq<Interactable>, p: Point, dist: (real, real) -> real)
    returns (nearest: Option<Interactable>)
    ensures nearest.None? <==> forall i :: 0 <= i < |items| ==> !InRange(items[i], p, dist)
    ensures nearest.Some? ==> exists k :: NearestAt(items, k, p, dist) && items[k] == nearest.value
  {
    nearest := None;
    var minDst: Option<real> := None;
    ghost var k := 0;
    var i := 0;
    while i < |items|
      invariant 0 <= i <= |items|
      invariant nearest.None? <==> minDst.None?
      invariant nearest.None? ==> forall j :: 0 <= j < i ==> !InRange(items[j], p, dist)
      invariant nearest.Some? ==>
        && 0 <= k < i
        && items[k] == nearest.value
        && minDst.value == Distance(items[k], p, dist)
        && InRange(items[k], p, dist)
        && (forall j :: 0 <= j < k && InRange(items[j], p, dist) ==>
              Distance(items[j], p, dist) > Distance(items[k], p, dist))
        && (forall j :: k < j < i && InRange(items[j], p, dist) ==>
              Distance(items[j], p, dist) >= Distance(items[k], p, dist))
    {
      var dst := dist(items[i].x - p.x, items[i].y - p.y);
      if dst < items[i].range && (minDst.None? || dst < minDst.value) {
        minDst := Some(dst);
        nearest := Some(items[i]);
        k := i;
      }
      i := i + 1;
    }
  }

  /** The `E` key interacts with the nearest item, if there is one. */
  function OnInteractKey(code: string, nearest: Option<Interactable>): (r: Option<Interactable>)
    ensures r.Some? <==> code == "KeyE" && nearest.Some?
    ensures r.Some? ==> r == nearest
  {
    if code == "KeyE" && nearest.Some? then nearest else None
  }
}

=== FILE: leaderboard.dfy ===
/** The leaderboard panel (components/Leaderboard.tsx): a copy of the players
    sorted by score, highest first, with the stable order of
    `Array.prototype.sort` among equal scores, then numbered from 1. The sort
    is a function on sequences, so the list it was given is never changed. */
module Leaderboard {
  import opened Types

  /** Scores never increase along the list. */
  predicate Descending(s: seq<Player>)
  {
    forall i, j :: 0 <= i < j < |s| ==> s[i].score >= s[j].score
  }

  /** The players of `s` with score `k`, in the order of `s`. */
  function WithScore(s: seq<Player>, k: int): (r: seq<Player>)
    ensures |r| <= |s|
    ensures forall i :: 0 <= i < |r| ==> r[i].score == k
  {
    if s == [] then []
    else if s[0].score == k then [s[0]] + WithScore(s[1..], k)
    else WithScore(s[1..], k)
  }

  lemma ConsDescending(x: Player, t: seq<Player>)
    requires Descending(t) && (t == [] || x.score >= t[0].score)
    ensures Descending([x] + t)
  {
    var r := [x] + t;
    forall i, j | 0 <= i < j < |r|
      ensures r[i].score >= r[j].score
    {
      if i == 0 && j > 1 { assert r[1].score >= r[j].score; }
    }
  }

  /** Places `p` before the first player whose score is not higher, so `p`
      goes ahead of every player it ties with. */
  function Insert(p: Player, s: seq<Player>): (r: seq<Player>)
    ensures |r| == |s| + 1 && (r[0] == p || (s != [] && r[0] == s[0]))
  {
    if s == [] || p.score >= s[0].score then [p] + s
    else [s[0]] + Insert(p, s[1..])
  }

  lemma {:induction false} InsertDescending(p: Player, s: seq<Player>)
    requires Descending(s)
    ensures Descending(Insert(p, s))
    decreases |s|
  {
    if s == [] || p.score >= s[0].score {
      ConsDescending(p, s);
    } else {
      var rest := Insert(p, s[1..]);
      InsertDescending(p, s[1..]);
      assert s[0].score >= rest[0].score;
      ConsDescending(s[0], rest);
    }
  }

  lemma {:induction false} InsertMultiset(p: Player, s: seq<Player>)
    ensures multiset(Insert(p, s)) == multiset(s) + multiset{p}
    decreases |s|
  {
    if s != [] && p.score < s[0].score {
      var rest := Insert(p, s[1..]);
      InsertMultiset(p, s[1..]);
      assert s == [s[0]] + s[1..];
      assert Insert(p, s) == [s[0]] + rest;
    }
  }

  lemma MultisetSplit(s: seq<Player>)
    requires s != []
    ensures multiset(s) == multiset(s[1..]) + multiset{s[0]}
  {
    assert s == [s[0]] + s[1..];
  }

  /** `[...players].sort((a, b) => b.score - a.score)`. */
  function SortByScore(players: seq<Player>): (r: seq<Player>)
    ensures Descending(r)
    ensures multiset(r) == multiset(players)
    ensures |r| == |players|
  {
    if players == [] then []
    else
      var rest := SortByScore(players[1..]);
      InsertDescending(players[0], rest);
      InsertMultiset(players[0], rest);
      MultisetSplit(players);
      Insert(players[0], rest)
  }

  lemma {:induction false} InsertWithScore(p: Player, s: seq<Player>, k: int)
    ensures WithScore(Insert(p, s), k)
            == (if p.score == k then [p] + WithScore(s, k) else WithScore(s, k))
    decreases |s|
  {
    if s == [] || p.score >= s[0].score {
      assert ([p] + s)[1..] == s;
    } else {
      InsertWithScore(p, s[1..], k);
      assert ([s[0]] + Insert(p, s[1..]))[1..] == Insert(p, s[1..]);
    }
  }

  /** Stability: for every score, the players with that score appear in the
      sorted list in the order they had in the input. */
  lemma {:induction false} SortIsStable(players: seq<Player>, k: int)
    ensures WithScore(SortByScore(players), k) == WithScore(players, k)
    decreases |players|
  {
    if players != [] {
      SortIsStable(players[1..], k);
      InsertWithScore(players[0], SortByScore(players[1..]), k);
    }
  }

  lemma {:induction false} WithScoreHead(s: seq<Player>)
    requires s != []
    ensures WithScore(s, s[0].score) != [] && WithScore(s, s[0].score)[0] == s[0]
  {
  }

  lemma {:induction false} WithScoreNonEmpty(s: seq<Player>, k: int)
    requires WithScore(s, k) != []
    ensures exists i :: 0 <= i < |s| && s[i].score == k
    decreases |s|
  {
    if s[0].score != k {
      WithScoreNonEmpty(s[1..], k);
      var i :| 0 <= i < |s[1..]| && s[1..][i].score == k;
      assert s[i + 1].score == k;
    }
  }

  lemma {:induction false} WithScoreTail(s: seq<Player>, k: int)
    requires s != []
    ensures WithScore(s[1..], k) == (if s[0].score == k then WithScore(s, k)[1..] else WithScore(s, k))
  {
  }

  /** The stable descending order is unique: two descending lists that agree
      on the order of the players of every score are the same list. */
  lemma {:induction false} StableOrderUnique(a: seq<Player>, b: seq<Player>)
    requires Descending(a) && Descending(b)
    requires forall k :: WithScore(a, k) == WithScore(b, k)
    ensures a == b
    decreases |a|
  {
    if a == [] || b == [] {
      if a != [] || b != [] {
        var c := if a != [] then a else b;
        var k := c[0].score;
        assert WithScore(a, k) == WithScore(b, k);
        WithScoreHead(c);
        assert false;
      }
    } else {
      WithScoreHead(a);
      WithScoreHead(b);
      WithScoreNonEmpty(a, b[0].score);
      WithScoreNonEmpty(b, a[0].score);
      assert a[0].score == b[0].score;
      assert a[0] == b[0];
      forall k
        ensures WithScore(a[1..], k) == WithScore(b[1..], k)
      {
        WithScoreTail(a, k);
        WithScoreTail(b, k);
      }
      StableOrderUnique(a[1..], b[1..]);
      assert a == [a[0]] + a[1..] && b == [b[0]] + b[1..];
    }
  }

  /** `SortByScore` is the one stable descending order of the players: any
      list that is descending and keeps every score's players in input order
      is exactly the sorted list. */
  lemma SortCharacterized(players: seq<Player>, candidate: seq<Player>)
    requires Descending(candidate)
    requires forall k :: WithScore(candidate, k) == WithScore(players, k)
    ensures candidate == SortByScore(players)
  {
    forall k
      ensures WithScore(candidate, k) == WithScore(SortByScore(players), k)
    {
      SortIsStable(players, k);
    }
    StableOrderUnique(candidate, SortByScore(players));
  }

  /** One line of the panel. */
  datatype Row = Row(rank: nat, highlighted: bool, isYou: bool, player: Player)

  /** The rows of the panel: rank is the position plus one, the first three
      ranks are highlighted, and the current user's row is marked. */
  function Rows(players: seq<Player>): (r: seq<Row>)
    ensures |r| == |players|
    ensures forall i :: 0 <= i < |r| ==> r[i].player == SortByScore(players)[i]
    ensures forall i :: 0 <= i < |r| ==> r[i].rank == i + 1 && (r[i].highlighted <==> r[i].rank <= 3)
    ensures forall i :: 0 <= i < |r| ==> r[i].isYou == r[i].player.isCurrentUser
  {
    var sorted := SortByScore(players);
    seq(|sorted|, i requires 0 <= i < |sorted| => Row(i + 1, i < 3, sorted[i].isCurrentUser, sorted[i]))
  }
}

=== FILE: minigame.dfy ===
/** The mini-game dialog (components/MiniGameModal.tsx) as a state machine
    over START, PLAYING, WON and LOST. Each awaited service result (the trivia
    question, the congratulation text) is a parameter of the step that awaits
    it, and the step is atomic; the `loading` flag is therefore always false
    between steps and is not kept. */
module MiniGame {
  import opened Wrappers
  import opened Types

  datatype Phase = Start | Playing | Won | Lost

  datatype Modal = Modal(
    kind: MiniGameType,
    phase: Phase,
    trivia: Option<TriviaQuestion>,
    congratsMsg: string,
    clicks: int,
    timeLeft: int)

  const ClickGoal: int := 15
  const ClickerSeconds: int := 5
  const TriviaPoints: int := 30
  const ClickerPoints: int := 20

  /** A step's new dialog state and the points passed to `onWin`, if any. */
  datatype Reaction = Reaction(modal: Modal, award: Option<int>)

  /** The dialog as first rendered: the initial values of its state hooks. */
  function Mount(kind: MiniGameType): (m: Modal)
    ensures m.kind == kind && m.phase == Start && m.trivia.None? && m.congratsMsg == ""
    ensures m.clicks == 0 && m.timeLeft == ClickerSeconds
  {
    Modal(kind, Start, None, "", 0, ClickerSeconds)
  }

  /** The effect run when `isOpen` changes: opening resets every game field;
      closing leaves the state alone. */
  function OnOpenChanged(m: Modal, isOpen: bool): (r: Modal)
    ensures isOpen ==> r == Mount(m.kind)
    ensures !isOpen ==> r == m
  {
    if isOpen then m.(phase := Start, clicks := 0, timeLeft := ClickerSeconds, trivia := None, congratsMsg := "")
    else m
  }

  /** One second of the clicker countdown. The interval exists only while a
      clicker game is being played; otherwise nothing ticks. */
  function Tick(m: Modal): (r: Modal)
    ensures !(m.phase == Playing && m.kind == Clicker) ==> r == m
    ensures m.phase == Playing && m.kind == Clicker && m.timeLeft <= 1 ==>
      r == m.(phase := Lost, timeLeft := 0)
    ensures m.phase == Playing && m.kind == Clicker && m.timeLeft > 1 ==>
      r == m.(timeLeft := m.timeLeft - 1)
    ensures 0 <= m.timeLeft <= ClickerSeconds ==> 0 <= r.timeLeft <= ClickerSeconds
  {
    if m.phase == Playing && m.kind == Clicker then
      if m.timeLeft <= 1 then m.(phase := Lost, timeLeft := 0)
      else m.(timeLeft := m.timeLeft - 1)
    else m
  }

  /** `startGame` (the Play and Retry buttons): a trivia game loads `question`
      and plays; a clicker game plays at once; a memory game does nothing.
      Neither the click count nor the countdown is reset. */
  function StartGame(m: Modal, question: TriviaQuestion): (r: Modal)
    ensures r.kind == m.kind && r.clicks == m.clicks && r.timeLeft == m.timeLeft
    ensures r.congratsMsg == m.congratsMsg
    ensures m.kind == Trivia ==> r.phase == Playing && r.trivia == Some(question)
    ensures m.kind == Clicker ==> r.phase == Playing && r.trivia == m.trivia
    ensures m.kind == Memory ==> r == m
  {
    match m.kind
    case Trivia => m.(trivia := Some(question), phase := Playing)
    case Clicker => m.(phase := Playing)
    case Memory => m
  }

  /** `handleTriviaAnswer`: with no question loaded nothing happens; the
      right index wins 30 points, any other index loses. */
  function AnswerTrivia(m: Modal, index: int, congrats: string): (r: Reaction)
    ensures m.trivia.None? ==> r == Reaction(m, None)
    ensures m.trivia.Some? && index == m.trivia.value.correctAnswerIndex ==>
      r.modal.phase == Won && r.modal.congratsMsg == congrats && r.award == Some(TriviaPoints)
    ensures m.trivia.Some? && index != m.trivia.value.correctAnswerIndex ==>
      r == Reaction(m.(phase := Lost), None)
    ensures r.modal.kind == m.kind && r.modal.clicks == m.clicks && r.modal.timeLeft == m.timeLeft
    ensures r.modal.trivia == m.trivia
  {
    if m.trivia.None? then Reaction(m, None)
    else if index == m.trivia.value.correctAnswerIndex then
      Reaction(m.(congratsMsg := congrats, phase := Won), Some(TriviaPoints))
    else Reaction(m.(phase := Lost), None)
  }

  /** `handleClicker`: one more click; the fifteenth (or any later) click
      wins 20 points. */
  function Click(m: Modal, congrats: string): (r: Reaction)
    ensures r.modal.clicks == m.clicks + 1
    ensures m.clicks + 1 >= ClickGoal ==>
      r.modal.phase == Won && r.modal.congratsMsg == congrats && r.award == Some(ClickerPoints)
    ensures m.clicks + 1 < ClickGoal ==> r == Reaction(m.(clicks := m.clicks + 1), None)
    ensures r.modal.kind == m.kind && r.modal.timeLeft == m.timeLeft && r.modal.trivia == m.trivia
  {
    var counted := m.(clicks := m.clicks + 1);
    if counted.clicks >= ClickGoal then
      Reaction(counted.(congratsMsg := congrats, phase := Won), Some(ClickerPoints))
    else Reaction(counted, None)
  }

  /** What the player can do to the open dialog. */
  datatype Action =
    | Play(question: TriviaQuestion)
    | Answer(index: int, congrats: string)
    | Press(congrats: string)
    | Retry(question: TriviaQuestion)
    | TimerTick

  /** Which actions the dialog offers: the Play button on START, the answer
      buttons while a trivia question is shown, the click button and the
      countdown while a clicker game runs, the Retry button on LOST. */
  function Enabled(m: Modal, a: Action): (b: bool)
    ensures m.phase == Won ==> !b
    ensures m.phase == Start ==> (b <==> a.Play?)
    ensures m.phase == Lost ==> (b <==> a.Retry?)
    ensures m.phase == Playing && b ==> !a.Play? && !a.Retry?
    ensures a.Press? || a.TimerTick? ==> (b <==> m.phase == Playing && m.kind == Clicker)
    ensures a.Answer? ==>
      (b <==> m.phase == Playing && m.kind == Trivia && m.trivia.Some? && 0 <= a.index < |m.trivia.value.options|)
  {
    match a
    case Play(_) => m.phase == Start
    case Answer(index, _) =>
      m.phase == Playing && m.kind == Trivia && m.trivia.Some? && 0 <= index < |m.trivia.value.options|
    case Press(_) => m.phase == Playing && m.kind == Clicker
    case Retry(_) => m.phase == Lost
    case TimerTick => m.phase == Playing && m.kind == Clicker
  }

  /** The handler each control runs: Play and Retry start the game, an
      answer button answers, the click button clicks, and the interval ticks.
      Only an answer or a click can award points, and only by winning; no
      action changes the game's kind. */
  function Apply(m: Modal, a: Action): (r: Reaction)
    ensures r.modal.kind == m.kind
    ensures r.award.Some? ==> r.modal.phase == Won && (a.Answer? || a.Press?)
    ensures a.Play? || a.Retry? ==> r.modal.phase == Playing || m.kind == Memory
    ensures a.TimerTick? ==> r.award.None? && r.modal.clicks == m.clicks
    ensures a.Press? ==> r.modal.clicks == m.clicks + 1
    ensures a.TimerTick? && m.phase == Playing && m.kind == Clicker ==>
      r.modal.timeLeft == (if m.timeLeft <= 1 then 0 else m.timeLeft - 1)
      && (r.modal.phase == Lost <==> m.timeLeft <= 1)
    ensures (a.Play? || a.Retry?) && m.kind == Trivia ==> r.modal.trivia == Some(a.question)
    ensures a.Answer? && m.trivia.Some? && a.index == m.trivia.value.correctAnswerIndex ==>
      r == Reaction(m.(congratsMsg := a.congrats, phase := Won), Some(TriviaPoints))
    ensures a.Answer? && m.trivia.Some? && a.index != m.trivia.value.correctAnswerIndex ==>
      r == Reaction(m.(phase := Lost), None)
    ensures a.Press? && m.clicks + 1 >= ClickGoal ==>
      r == Reaction(m.(clicks := m.clicks + 1, congratsMsg := a.congrats, phase := Won), Some(ClickerPoints))
    ensures a.Press? && m.clicks + 1 < ClickGoal ==> r == Reaction(m.(clicks := m.clicks + 1), None)
  {
    match a
    case Play(q) => Reaction(StartGame(m, q), None)
    case Answer(index, msg) => AnswerTrivia(m, index, msg)
    case Press(msg) => Click(m, msg)
    case Retry(q) => Reaction(StartGame(m, q), None)
    case TimerTick => Reaction(Tick(m), None)
  }

  /** What holds of every dialog state reachable from opening: the countdown
      stays within 0..5, the count never passes the goal and reaches it only
      by winning, a lost clicker game has no time left, and a trivia game in
      play has its question. */
  predicate Inv(m: Modal)
  {
    && 0 <= m.timeLeft <= ClickerSeconds
    && 0 <= m.clicks <= ClickGoal
    && (m.clicks == ClickGoal ==> m.phase == Won)
    && (m.kind == Clicker && m.phase == Lost ==> m.timeLeft == 0)
    && (m.kind == Trivia && m.phase == Playing ==> m.trivia.Some?)
  }

  lemma OpenEstablishesInv(m: Modal)
    ensures Inv(OnOpenChanged(m, true))
    ensures Inv(Mount(m.kind))
  {
  }

  /** Every action the dialog offers keeps the invariant. */
  lemma ApplyPreservesInv(m: Modal, a: Action)
    requires Inv(m) && Enabled(m, a)
    ensures Inv(Apply(m, a).modal)
  {
  }

  /** Points are awarded only by a step that wins: 20 for the click that
      reaches the goal, 30 for the right trivia answer. */
  lemma AwardOnlyOnWin(m: Modal, a: Action)
    requires Inv(m) && Enabled(m, a)
    ensures Apply(m, a).award.Some? ==> Apply(m, a).modal.phase == Won && m.phase == Playing
    ensures Apply(m, a).award == Some(ClickerPoints) <==> a.Press? && m.clicks + 1 == ClickGoal
    ensures Apply(m, a).award == Some(TriviaPoints) <==>
      a.Answer? && a.index == m.trivia.value.correctAnswerIndex
  {
  }

  /** A won game offers nothing more. In the model, where each awaiting step
      is atomic, `onWin` therefore fires at most once per opening of the
      dialog. In the source, clicks or a further correct answer made while
      the congratulation is awaited award the clicker or trivia points
      again. */
  lemma WonIsFinal(m: Modal, a: Action)
    requires m.phase == Won
    ensures !Enabled(m, a)
  {
  }

  /** Retrying a clicker game that ran out of time keeps the spent countdown,
      so the very next tick loses again unless the goal is reached first. */
  lemma ClickerRetryLosesOnFirstTick(m: Modal, q: TriviaQuestion)
    requires Inv(m) && m.kind == Clicker && m.phase == Lost
    ensures Apply(m, Retry(q)).modal.phase == Playing
    ensures Apply(m, Retry(q)).modal.timeLeft == 0 && Apply(m, Retry(q)).modal.clicks == m.clicks
    ensures Tick(Apply(m, Retry(q)).modal).phase == Lost
  {
  }
}

=== FILE: network.dfy ===
/** The payload translation of the peer network service
    (services/networkService.ts): how a `Player` becomes a `move` payload, how
    inbound `move`, `chat` and `score` payloads and peer join/leave
    notifications become calls of the registered callbacks. The transport
    itself is not modelled; a callback is an opaque value of type `C`, and a
    slot holding `None` is a callback field still set to `null`. */
module Network {
  import opened Wrappers
  import opened Types

  /** The `move` wire payload: a full snapshot, not a delta. */
  datatype MovePayload = MovePayload(
    x: real,
    y: real,
    id: string,
    name: string,
    avatar: string,
    score: int)

  /** The `score` wire payload. The `chat` payload has exactly the fields of
      `ChatMessage` and is that type. */
  datatype ScorePayload = ScorePayload(id: string, score: int)

  /** One inbound event of the transport, with the sender's peer id where the
      transport supplies one. */
  datatype Inbound =
    | PeerJoin(peerId: string)
    | PeerLeave(peerId: string)
    | MoveIn(move: MovePayload, from: string)
    | ChatIn(chat: ChatMessage, from: string)
    | ScoreIn(update: ScorePayload, from: string)

  /** The five public callback fields of the service; `None` is `null`. */
  datatype Callbacks<C> = Callbacks(
    onPlayerMoved: Option<C>,
    onPlayerLeft: Option<C>,
    onChatMessage: Option<C>,
    onScoreUpdate: Option<C>,
    onPeerJoined: Option<C>)

  /** The arguments a callback is invoked with. */
  datatype Notice =
    | PlayerMoved(player: Player)
    | PlayerLeft(playerId: string)
    | ChatArrived(msg: ChatMessage)
    | ScoreUpdated(playerId: string, newScore: int)
    | PeerJoined(peerId: string)

  /** One invocation: which callback fires, and with what. */
  datatype Call<C> = Call(callback: C, notice: Notice)

  /** What `broadcastMove` sends for a player. */
  function BroadcastMove(p: Player): (m: MovePayload)
    ensures m.id == p.id && m.name == p.name && m.avatar == p.avatar
    ensures m.score == p.score && m.x == p.x && m.y == p.y
  {
    MovePayload(p.x, p.y, p.id, p.name, p.avatar, p.score)
  }

  /** What `broadcastScore` sends. */
  function BroadcastScore(playerId: string, score: int): (m: ScorePayload)
    ensures m.id == playerId && m.score == score
  {
    ScorePayload(playerId, score)
  }

  /** What `broadcastChat` sends: the message itself. */
  function BroadcastChat(msg: ChatMessage): (m: ChatMessage)
    ensures m == msg
  {
    msg
  }

  /** The player built from an inbound `move`: identity from the transport,
      never from the payload; always a remote player; no velocity and no
      speech bubble. */
  function ReceiveMove(data: MovePayload, peerId: string): (p: Player)
    ensures p.id == peerId
    ensures !p.isCurrentUser
    ensures p.name == data.name && p.avatar == data.avatar && p.score == data.score
    ensures p.x == data.x && p.y == data.y
    ensures p.vx.None? && p.vy.None? && p.currentMessage.None? && p.messageTimer.None?
  {
    Player(peerId, data.name, data.score, false, data.avatar, data.x, data.y,
           None, None, None, None)
  }

  /** How a player looks to a peer after one `move` round trip: the fields a
      `move` carries survive, the local-only ones are reset. */
  function RemoteView(p: Player): Player
  {
    p.(isCurrentUser := false, vx := None, vy := None,
       currentMessage := None, messageTimer := None)
  }

  /** The callback invocation an inbound event causes, if any: the callback
      in the event's own slot, when that slot is set, with the arguments the
      service passes for that kind of event. */
  function Handle<C>(cbs: Callbacks<C>, ev: Inbound): (r: Option<Call<C>>)
    ensures r.Some? <==> Slot(cbs, ev).Some?
    ensures r.Some? ==> r.value.callback == Slot(cbs, ev).value
    ensures r.Some? && ev.PeerJoin? ==> r.value.notice == PeerJoined(ev.peerId)
    ensures r.Some? && ev.PeerLeave? ==> r.value.notice == PlayerLeft(ev.peerId)
    ensures r.Some? && ev.MoveIn? ==> r.value.notice == PlayerMoved(ReceiveMove(ev.move, ev.from))
    ensures r.Some? && ev.ChatIn? ==> r.value.notice == ChatArrived(ev.chat)
    ensures r.Some? && ev.ScoreIn? ==> r.value.notice == ScoreUpdated(ev.from, ev.update.score)
  {
    match ev
    case PeerJoin(peerId) =>
      if cbs.onPeerJoined.Some? then Some(Call(cbs.onPeerJoined.value, PeerJoined(peerId))) else None
    case PeerLeave(peerId) =>
      if cbs.onPlayerLeft.Some? then Some(Call(cbs.onPlayerLeft.value, PlayerLeft(peerId))) else None
    case MoveIn(data, peerId) =>
      if cbs.onPlayerMoved.Some? then Some(Call(cbs.onPlayerMoved.value, PlayerMoved(ReceiveMove(data, peerId)))) else None
    case ChatIn(data, _) =>
      if cbs.onChatMessage.Some? then Some(Call(cbs.onChatMessage.value, ChatArrived(data))) else None
    case ScoreIn(data, peerId) =>
      if cbs.onScoreUpdate.Some? then Some(Call(cbs.onScoreUpdate.value, ScoreUpdated(peerId, data.score))) else None
  }

  /** The callback slot that an inbound event is routed to. */
  function Slot<C>(cbs: Callbacks<C>, ev: Inbound): Option<C>
  {
    match ev
    case PeerJoin(_) => cbs.onPeerJoined
    case PeerLeave(_) => cbs.onPlayerLeft
    case MoveIn(_, _) => cbs.onPlayerMoved
    case ChatIn(_, _) => cbs.onChatMessage
    case ScoreIn(_, _) => cbs.onScoreUpdate
  }

  /** With every slot `null`, no inbound event fires anything. */
  lemma HandleFiresOnlyRegistered<C>(cbs: Callbacks<C>, ev: Inbound)
    ensures cbs == Callbacks(None, None, None, None, None) ==> Handle(cbs, ev).None?
  {
  }

  /** The `id` field of an inbound `move` payload has no effect at all. */
  lemma MoveIgnoresPayloadId(data: MovePayload, peerId: string, forged: string)
    ensures ReceiveMove(data.(id := forged), peerId) == ReceiveMove(data, peerId)
  {
  }

  /** Round trip: a peer that receives `broadcastMove(p)` from `p.id` rebuilds
      `p` as a remote player with the same identity, name, avatar, score and
      position. */
  lemma MoveRoundTrip(p: Player)
    ensures ReceiveMove(BroadcastMove(p), p.id) == RemoteView(p)
    ensures !p.isCurrentUser && p.vx.None? && p.vy.None? && p.currentMessage.None? && p.messageTimer.None?
            ==> ReceiveMove(BroadcastMove(p), p.id) == p
  {
  }

  /** The other direction: re-broadcasting a decoded move reproduces the
      payload, except that its `id` is now the transport's peer id. */
  lemma MoveRoundTripPayload(data: MovePayload, peerId: string)
    ensures BroadcastMove(ReceiveMove(data, peerId)) == data.(id := peerId)
  {
  }

  /** A `score` update reports the sender's peer id with the payload's score;
      the payload's `id` is ignored, and a score broadcast by the owner of
      that id arrives unchanged. */
  lemma ScoreRoundTrip<C>(cbs: Callbacks<C>, playerId: string, score: int, forged: string)
    requires cbs.onScoreUpdate.Some?
    ensures Handle(cbs, ScoreIn(BroadcastScore(playerId, score), playerId))
            == Some(Call(cbs.onScoreUpdate.value, ScoreUpdated(playerId, score)))
    ensures Handle(cbs, ScoreIn(BroadcastScore(forged, score), playerId))
            == Handle(cbs, ScoreIn(BroadcastScore(playerId, score), playerId))
  {
  }

  /** A chat payload is forwarded unchanged whoever the transport says sent
      it. */
  lemma ChatIgnoresSender<C>(cbs: Callbacks<C>, msg: ChatMessage, from1: string, from2: string)
    ensures Handle(cbs, ChatIn(BroadcastChat(msg), from1)) == Handle(cbs, ChatIn(msg, from2))
    ensures Handle(cbs, ChatIn(msg, from1)).Some? ==> Handle(cbs, ChatIn(msg, from1)).value.notice == ChatArrived(msg)
  {
  }
}

=== FILE: seqs.dfy ===
/** Sequence notions shared by the views: subsequences and filtering, as
    `Array.prototype.filter` and `forEach` with a condition keep them. */
module Seqs {

  /** `a` is `b` with some elements left out and the rest kept in order. */
  predicate IsSubsequence<T(==)>(a: seq<T>, b: seq<T>)
    decreases |b|
  {
    if a == [] then true
    else if b == [] then false
    else if a[0] == b[0] then IsSubsequence(a[1..], b[1..])
    else IsSubsequence(a, b[1..])
  }

  /** The elements of `s` that satisfy `keep`, in order: every kept value
      appears as often as in `s`, every other value not at all. */
  function Filter<T(==,!new)>(s: seq<T>, keep: T -> bool): (r: seq<T>)
    ensures forall x :: x in r <==> x in s && keep(x)
    ensures forall x :: multiset(r)[x] == (if keep(x) then multiset(s)[x] else 0)
    ensures IsSubsequence(r, s)
    ensures |r| <= |s|
  {
    if s == [] then []
    else
      assert s == [s[0]] + s[1..];
      if keep(s[0]) then [s[0]] + Filter(s[1..], keep) else Filter(s[1..], keep)
  }

  /** One step of the filter: the head is kept or dropped, and the tail is
      filtered alike. */
  lemma FilterStep<T(!new)>(s: seq<T>, keep: T -> bool)
    requires s != []
    ensures Filter(s, keep) == if keep(s[0]) then [s[0]] + Filter(s[1..], keep) else Filter(s[1..], keep)
  {
  }
}

=== FILE: types.dfy ===
/** The records of the holiday world (types.ts). Every `number` that is a
    position, a size or a radius is a `real`; scores, clicks and timestamps
    are `int`; strings are `seq<char>`. */
module Types {
  import opened Wrappers

  datatype ZoneId = TownSquare | FrozenLake | SantaWorkshop | MysticForest

  datatype MiniGameType = Trivia | Clicker | Memory

  datatype ChatMessage = ChatMessage(
    id: string,
    senderId: string,
    senderName: string,
    text: string,
    timestamp: int)

  /** A participant. `vx`, `vy`, `currentMessage` and `messageTimer` are the
      optional fields of the source record. */
  datatype Player = Player(
    id: string,
    name: string,
    score: int,
    isCurrentUser: bool,
    avatar: string,
    x: real,
    y: real,
    vx: Option<real>,
    vy: Option<real>,
    currentMessage: Option<string>,
    messageTimer: Option<real>)

  /** The `type: 'GAME' | 'NPC' | 'PORTAL'` tag of an interactable. */
  datatype InteractableKind = Game | Npc | Portal

  datatype Interactable = Interactable(
    id: string,
    x: real,
    y: real,
    caption: string,   // the source field `label` (a Dafny keyword)
    icon: string,
    kind: InteractableKind,
    gameType: Option<MiniGameType>,
    targetZone: Option<ZoneId>,
    message: Option<string>,
    range: real)

  datatype EasterEgg = EasterEgg(
    id: string,
    zoneId: ZoneId,
    x: real,
    y: real,
    found: bool)

  datatype ZoneData = ZoneData(
    id: ZoneId,
    name: string,
    description: string,
    width: real,
    height: real,
    backgroundPattern: string,
    interactables: seq<Interactable>)

  datatype TriviaQuestion = TriviaQuestion(
    question: string,
    options: seq<string>,
    correctAnswerIndex: int)
}

=== FILE: worldzone.dfy ===
/** The zone view (components/WorldZone.tsx): which eggs are offered for
    clicking, and which callback a click on a button of the view fires. */
module WorldZone {
  import opened Wrappers
  import opened Types
  import opened Seqs

  /** An egg is offered in a zone when it belongs to that zone and is not yet
      found. */
  predicate Offered(zone: ZoneData, egg: EasterEgg)
  {
    egg.zoneId == zone.id && !egg.found
  }

  /** `eggsInZone`: the eggs of the zone that are still hidden, in list
      order. */
  function EggsInZone(zone: ZoneData, eggs: seq<EasterEgg>): (r: seq<EasterEgg>)
    ensures forall e :: e in r <==> e in eggs && Offered(zone, e)
    ensures forall e :: multiset(r)[e] == (if Offered(zone, e) then multiset(eggs)[e] else 0)
    ensures forall i :: 0 <= i < |r| ==> r[i].zoneId == zone.id && !r[i].found
    ensures |r| <= |eggs|
    ensures IsSubsequence(r, eggs)
  {
    var r := Filter(eggs, e => Offered(zone, e));
    assert forall i :: 0 <= i < |r| ==> r[i] in r;
    r
  }

  /** The display of a non-empty egg list: its head when that is offered,
      followed by the display of the rest. */
  lemma EggsInZoneStep(zone: ZoneData, eggs: seq<EasterEgg>)
    requires eggs != []
    ensures EggsInZone(zone, eggs)
            == (if Offered(zone, eggs[0]) then [eggs[0]] else []) + EggsInZone(zone, eggs[1..])
  {
    FilterStep(eggs, e => Offered(zone, e));
  }

  /** A click on the view: the `k`-th interactable button or the `k`-th egg
      button (counting only the eggs on display). */
  datatype Click = ClickItem(k: nat) | ClickEgg(k: nat)

  /** The callback a click fires. */
  datatype ZoneCall = Interact(target: Interactable) | FoundEgg(eggId: string)

  /** A click on an existing button fires its callback with that exact item
      or egg id; a click past the last button hits nothing. */
  function OnClick(zone: ZoneData, eggs: seq<EasterEgg>, c: Click): (r: Option<ZoneCall>)
    ensures c.ClickItem? ==>
      (r.Some? <==> c.k < |zone.interactables|)
      && (r.Some? ==> r.value == Interact(zone.interactables[c.k]))
    ensures c.ClickEgg? ==>
      (r.Some? <==> c.k < |EggsInZone(zone, eggs)|)
      && (r.Some? ==> r.value == FoundEgg(EggsInZone(zone, eggs)[c.k].id))
      && (r.Some? ==> exists i :: 0 <= i < |eggs| && eggs[i].id == r.value.eggId && Offered(zone, eggs[i]))
  {
    match c
    case ClickItem(k) =>
      if k < |zone.interactables| then Some(Interact(zone.interactables[k])) else None
    case ClickEgg(k) =>
      var shown := EggsInZone(zone, eggs);
      if k < |shown| then
        assert shown[k] in eggs;
        Some(FoundEgg(shown[k].id))
      else None
  }
}

=== FILE: wrappers.dfy ===
/** The optional-value datatype used for TypeScript's optional fields (`x?: T`)
    and for the nullable values (`T | null`) of the holiday world. */
module Wrappers {

  datatype Option<+T> = None | Some(value: T)
}
